=== FILE: README.md ===
# Chess robot controller, modelled in Dafny

`app_v2.py` moves one chess piece with a robot arm. It is run as
`app.py <from> <to>`. It lower-cases both square names and validates
them. It loads a map of named motion sequences (`command.json`) and
runs a fixed eleven-stage pick-and-place plan, one sequence after the
other, each over an MCP tool session of its own (app_v2.py:97-106). The plan mixes sequences looked up by
label with home sequences built from a static position table. That
table gives every square a forward distance and a base rotation.

The model is purely functional. Each module follows one part of the
program:

- `Positions` (positions.dfy) is the position table, written as eight
  column displays in source order and folded into a map the way a
  Python dict literal is built. It also holds the shape facts about
  the table.
- `Validator` (validator.dfy) is `validate_position`: four ordered
  checks, where the first failing one decides the verdict and its
  message.
- `Decimal` (decimal.dfy) renders integers as the source does (`str`
  and the f-string `-{n}`). It also reads such text back, so that
  motion arguments can be read as numbers.
- `Home` (home.dfy) is `create_home_sequence`.
- `Executor` (executor.dfy) is `execute_robot_sequence` as a trace of
  events. A step shows up as a wait or a tool call, followed by the
  settling pause. An oracle decides, from the events so far, whether a
  call raises. A call that raises ends the sequence with no pause
  after it.
- `Move` (move.dfy) is `execute_command_sequence` and
  `move_chess_piece`: the eleven-stage plan, the per-stage statuses,
  and the checks that come before the plan runs.
- `Cli` (cli.dfy) is `main`: the argument count, lower-casing, both
  validations and the same-square check.

A missing fixed label such as `"close"` does not abort the move:
`execute_command_sequence` reports the missing label and returns
normally (app_v2.py:146-148), and the later stages still run. So the
model reports such a stage as `Skipped` and carries on.
Only a call that raises aborts the move (app_v2.py:123-125, 246-248).
The lookups `POSITION_DATA[...]` at app_v2.py:196-197 would raise for a
square the table lacks. They are modelled as the outcome
`NoPositionData`, and `Move.SquareMove` and `Cli.MainPlan` prove that
this outcome cannot be reached from `main`.

## Model

| member | source | states |
|---|---|---|
| Positions.ToMap | app_v2.py:13-93 | the dictionary built from the display has exactly the listed keys, each key's value is one listed with it, and the last pair's value always holds |
| Positions.ToMapLastWins | app_v2.py:13-93 | later pairs overwrite earlier ones: a pair whose key is not listed again later is the value the dictionary holds |
| Positions.ToMapDistinct | app_v2.py:13-93 | with no repeated key, the dictionary has one key per listed pair and holds each listed value |
| Positions.Flatten | app_v2.py:13-93 | a pair is in the joined display exactly when it is in one of the column groups |
| Positions.ColumnShapeFromSteps | app_v2.py:13-93 | right keys, the given rotation at every square, a positive first distance and increasing neighbours give a column the full layout with that rotation (pairwise increase) |
| Positions.ColumnAShape | app_v2.py:14-22 | column a: keys a8..a1 in that order, every square at rotation -90, forward distances positive and increasing towards row 1 |
| Positions.ColumnBShape | app_v2.py:24-32 | column b has the same layout, at rotation -45 |
| Positions.ColumnCShape | app_v2.py:34-42 | column c has the same layout, at rotation -22 |
| Positions.ColumnDShape | app_v2.py:44-52 | column d has the same layout, at rotation 0 |
| Positions.ColumnEShape | app_v2.py:54-62 | column e has the same layout, at rotation 22 |
| Positions.ColumnFShape | app_v2.py:64-72 | column f has the same layout, at rotation 45 |
| Positions.ColumnGShape | app_v2.py:74-82 | column g has the same layout, at rotation 67 |
| Positions.ColumnHShape | app_v2.py:84-92 | column h has the same layout, at rotation 90 |
| Positions.BoardHasShape | app_v2.py:13-93 | the display is eight columns a..h, each with that layout |
| Positions.ColumnDistinct | app_v2.py:13-93 | no key repeats within a column |
| Positions.ShapeDistinct | app_v2.py:13-93 | no key repeats anywhere in the display |
| Positions.ShapeKeys | app_v2.py:13-93 | a display with the board layout builds a map keyed by exactly the 64 square names, holding each listed entry |
| Positions.SquareValue | app_v2.py:13-93 | in a display with the board layout, each key is a square name, its forward distance is positive and its rotation is its column's angle (-90 for a through 90 for h), one of the eight angles |
| Positions.SquareOrder | app_v2.py:13-93 | of two squares in one column of such a display, the one with the lower row digit lies farther forward |
| Positions.TableShape | app_v2.py:13-93 | the table's keys are exactly the 64 names a1..h8; every forward distance is positive; one rotation per column, drawn from {-90,-45,-22,0,22,45,67,90}, and it is -90, -45, -22, 0, 22, 45, 67, 90 for columns a to h; within a column the forward distance grows strictly from row 8 to row 1 |
| Positions.TableHoldsDisplay | app_v2.py:13-93 | every pair written in the table is its key's value: no pair is overwritten |
| Positions.SquareInTable | app_v2.py:13-93 | every well-formed square name is a key of the table |
| Validator.ValidatePosition | app_v2.py:153-167 | length is checked first, then column, then row, then membership; each rejection carries the offending character or name; an accepted name is a table key |
| Validator.Message | app_v2.py:155-167 | the message is "Valid" exactly for a valid verdict |
| Validator.ValidateIsSyntactic | app_v2.py:153-167 | the validator accepts exactly the well-formed square names; the membership check never rejects |
| Validator.ValidateAccepts | app_v2.py:153-167 | "d7" is valid |
| Validator.ValidateRejects | app_v2.py:155-162 | "i9" fails on its column, "d" on its length, "D7" on its column, "a9" on its row |
| Decimal.IntToString | app_v2.py:135-140 | Python's `str` of an integer: non-empty, led by a minus sign exactly for a negative number, with only digits after it and no leading zero; 0 renders as "0" |
| Decimal.NatToString | app_v2.py:135 | the rendering is non-empty and all digits, with a leading zero only for 0 |
| Decimal.NatRoundTrip | app_v2.py:135-140 | the digits of n read back as n |
| Decimal.NegatedRoundTrip | app_v2.py:135 | the text `-{n}` reads back as -n |
| Decimal.UnsignedRoundTrip | app_v2.py:140 | the text `str(n)` of a natural number reads back as n |
| Decimal.IntRoundTrip | app_v2.py:140 | `str(n)` reads back as n for every integer |
| Decimal.IntToStringInjective | app_v2.py:140 | distinct integers render as distinct text |
| Home.CreateHomeSequence | app_v2.py:127-142 | four steps when the rotation is 0, five otherwise; the fixed lift first, then the forward retreat, then the turn by the negated angle |
| Home.HomeRetreats | app_v2.py:135 | read as a number, the retreat argument is minus the forward distance |
| Home.HomeTurnsBack | app_v2.py:129-140 | a fifth step exists exactly when the rotation is not 0, and its angle plus the rotation is 0 |
| Home.HomeNeverTurnsByZero | app_v2.py:129-140 | no step of a home sequence turns the base by 0 degrees |
| Home.HomeDrivesOneTool | app_v2.py:131-140 | every step calls `move_robot`; a home sequence never waits |
| Home.HomeSamples | app_v2.py:127-142 | from (70, -90) the fifth step turns by "90" and the retreat is "-70"; at rotation 0 there are four steps |
| Executor.Announce | app_v2.py:109-118 | a step shows up as a wait exactly when it is a wait step, carrying that step's duration, and as a dispatch exactly when it is a call step, carrying that step's tool and arguments |
| Executor.RunSequence | app_v2.py:108-125 | a failed run names a call step of the sequence |
| Executor.After | app_v2.py:108-121 | prefixing completed events keeps a run finished or failed |
| Executor.AfterAfter | app_v2.py:108-121 | prefixing twice is prefixing once with both prefixes |
| Executor.RunSequenceSpec | app_v2.py:108-125 | finished: the events replay every step, and no call raised; failed: the steps before the failure are replayed, the failing call is observed with no pause after it, the oracle said it raises, and every earlier step survived |
| Executor.ReplayLayout | app_v2.py:108-121 | each completed step contributes exactly two events: its wait or call, then one pause |
| Executor.ReplayAppend | app_v2.py:108-121 | replaying two lists in turn is replaying their concatenation |
| Executor.PrefixReplay | app_v2.py:108-121 | replaying a longer prefix peels off the first step's two events |
| Executor.ShiftSurvives | app_v2.py:108-121 | a later step survives in the whole list exactly when it survives in the rest, after the first step's events |
| Executor.RunStep | app_v2.py:108-121 | a first step that completes contributes its events and shifts a later failure's index by one |
| Executor.RunAppendFailed | app_v2.py:123-125 | when the first part fails, the steps after it change nothing |
| Executor.RunAppendFinished | app_v2.py:108-125 | when the first part finishes, the whole runs on into the second part, after the first part's events and steps |
| Move.MovePlan | app_v2.py:205-241 | the plan has eleven stages, and the home stages are exactly stages 5 and 9 (the label of every other stage is stated by Move.PlanLabels) |
| Move.PlanLabels | app_v2.py:170-241 | the source square is named only at stage 3 and the destination only at stage 7; every other named stage is a fixed label, in the order attack, open, close, attack, open, close, move_for_cam (stages 1, 2, 4, 6, 8, 10, 11); the home stages carry the two squares' entries |
| Move.SquaresAreNotFixedLabels | app_v2.py:205-241 | no square name is one of the fixed labels |
| Move.RunStages | app_v2.py:144-248 | no more statuses than stages |
| Move.SkippedIffMissing | app_v2.py:146-148 | a stage is reported skipped exactly when its label is missing from the command map |
| Move.AbortIsLast | app_v2.py:205-248 | only the last stage that began can have aborted |
| Move.AbortEndsPlan | app_v2.py:246-248 | stages stop beginning only after an abort |
| Move.StagesAreOneSequence | app_v2.py:144-248 | running the plan stage by stage observes what running all its steps as one sequence observes, and aborts exactly when that sequence fails |
| Move.PlanTrace | app_v2.py:108-248 | with no abort, every stage began, each skipped exactly when missing, the events replay all steps, and no call raised; with an abort, the events stop at a call that raised, and every step before it survived |
| Move.NoFailureFinishes | app_v2.py:108-121 | with no call raising, a sequence always runs to the end |
| Move.NoFailureStatuses | app_v2.py:144-241 | with no call raising, every stage begins, and each is skipped exactly when its label is missing |
| Move.MoveChessPiece | app_v2.py:169-241 | a missing file and invalid JSON each give their own outcome, exactly in those cases; a loaded map that lacks the source reports the source, one that has the source but lacks the destination reports the destination; a missing table entry is reported only for known labels, source first; the plan runs exactly when the configuration loaded and both squares are labels and table keys, and it uses both squares' table entries |
| Move.SquareMove | app_v2.py:186-197 | for square names the table lookup never fails, and the plan runs exactly when the command map knows both squares |
| Move.MissingCloseSkippedInPlan | app_v2.py:144-241 | without "close", and with no call raising, stages 4 and 10 are skipped and the other nine run |
| Move.MissingCloseIsSkipped | app_v2.py:144-241 | a move between two known squares still runs when "close" is missing, with exactly the two close stages skipped |
| Cli.Lower | app_v2.py:300-301 | lower-casing keeps the length, leaves no upper-case ASCII letter, turns each upper-case letter into its lower-case partner, keeps every other character, and yields only characters that lower-casing maps to themselves |
| Cli.LowerIdempotent | app_v2.py:300-301 | lower-casing twice is lower-casing once |
| Cli.Main | app_v2.py:291-329 | the wrong-count outcome happens exactly when there are not two arguments; a refused source carries its verdict; a refused destination comes after a valid source and carries its own verdict; the same-square refusal needs a valid source equal to the destination; a move uses the lower-cased arguments and is exactly `move_chess_piece` on them |
| Cli.MainGuards | app_v2.py:295-319 | a move is attempted exactly when there are two arguments that, once lower-cased, are distinct square names; a destination error happens only after a valid source; each refusal carries the validator's verdict on that name; the same-square refusal happens exactly for a valid source equal to the destination |
| Cli.MainPlan | app_v2.py:295-329 | an attempted move never hits a missing table entry, runs the plan exactly when the command map knows both squares, and meets the conditions of Move.PlanLabels |
| Cli.MainLowerCases | app_v2.py:300-329 | "D7 d5" moves d7 to d5 |
| Cli.MainSameSquare | app_v2.py:300-319 | "e4 E4" is refused as the same square |
| Cli.MainRefusals | app_v2.py:295-308 | one argument is the wrong count; "i9 d5" fails on the source column |

## Left out

- The MCP transport is not modelled: the server subprocess, `stdio_client`, `ClientSession` and `initialize` (app_v2.py:97-106). A failure to connect or to initialise, which the source meets once per sequence, is not modelled. Only a tool call that raises is, and an oracle over the events so far decides it.
- The result of `call_tool` is only printed (app_v2.py:119). A call that returns an error result without raising counts as completed.
- Timing is not modelled. The `wait` durations and the 0.3 s pause appear as opaque `Waited` and `Paused` events (app_v2.py:110-112, 121). Wait durations are `real`.
- A step is either a wait or a tool call. A JSON step with a `wait` key is a wait whatever else it holds (app_v2.py:109). A step without `tool` or `args` would raise `KeyError`; the model has no such step.
- Loading `command.json` is reduced to three cases: it loaded as a map of label to steps, the file is missing, or the JSON is invalid (app_v2.py:176-184). A JSON document of another shape is not modelled.
- Output is left out: every `print`, `print_usage` and `print_position_info` (app_v2.py:250-289). So is the `.upper()` used only in messages.
- `load_dotenv`, the environment passed to the server, and the top-level `KeyboardInterrupt`/`sys.exit` handling (app_v2.py:10, 331-338) are left out.
- Argument values are strings only (`Executor.Args` maps names to text). A JSON step may give a number or an object as an argument value; such a value is not modelled.
- Cli.Lower: lower-cases ASCII letters only, where Python's `.lower()` also maps non-ASCII letters.
- Home.HomeRetreats: stated only for non-negative forward distances. For a negative distance the text `-{n}` is `--n`, which does not read as a number. Every distance in the table is positive (Positions.TableShape).

=== FILE: cli.dfy ===
/** The command-line entry point: two square arguments, lower-cased,
    validated in turn, required to differ, then one move. */
module Cli {
  import opened Positions
  import opened Validator
  import opened Executor
  import opened Move

  /** Lower-cases an ASCII letter; every other character is kept. */
  function LowerChar(ch: char): (c: char)
  {
    if 'A' <= ch <= 'Z' then (ch as int + 32) as char else ch
  }

  /** Lower-cases every ASCII letter of a string: the result has the same
      length, no upper-case ASCII letter is left, each upper-case letter
      becomes its lower-case partner 32 code points on, every other
      character is kept, and lower-casing again changes no character. */
  function Lower(s: string): (t: string)
    ensures |t| == |s|
    ensures forall i | 0 <= i < |t| :: !('A' <= t[i] <= 'Z')
    ensures forall i | 0 <= i < |s| :: 'A' <= s[i] <= 'Z' ==> 'a' <= t[i] <= 'z' && t[i] as int == s[i] as int + 32
    ensures forall i | 0 <= i < |s| :: !('A' <= s[i] <= 'Z') ==> t[i] == s[i]
    ensures forall i | 0 <= i < |t| :: LowerChar(t[i]) == t[i]
  {
    seq(|s|, i requires 0 <= i < |s| => LowerChar(s[i]))
  }

  /** Lower-casing is idempotent. */
  lemma LowerIdempotent(s: string)
    ensures Lower(Lower(s)) == Lower(s)
  {
  }

  /** How one run of the program ended. */
  datatype Outcome =
    | WrongArgumentCount          // usage printed; nothing moved
    | InvalidFrom(reason: Rejection) // usage printed; nothing moved
    | InvalidTo(reason: Rejection)   // usage printed; nothing moved
    | SamePosition                // reported; nothing moved
    | Moved(fromPosition: string, toPosition: string, result: MoveResult)

  /** The program run on `argv` (the program name, then its arguments). */
  function Main(argv: seq<string>, config: Config, fails: Oracle): (r: Outcome)
    ensures r == WrongArgumentCount <==> |argv| != 3
    ensures r.Moved? ==>
      && r.fromPosition == Lower(argv[1])
      && r.toPosition == Lower(argv[2])
      && r.result == MoveChessPiece(r.fromPosition, r.toPosition, config, fails)
    ensures r.InvalidFrom? ==>
      |argv| == 3 && ValidatePosition(Lower(argv[1])) == Invalid(r.reason)
    ensures r.InvalidTo? ==>
      && |argv| == 3 && ValidatePosition(Lower(argv[1])).Valid?
      && ValidatePosition(Lower(argv[2])) == Invalid(r.reason)
    ensures r == SamePosition ==>
      && |argv| == 3 && ValidatePosition(Lower(argv[1])).Valid?
      && Lower(argv[1]) == Lower(argv[2])
  {
    if |argv| != 3 then WrongArgumentCount
    else
      var fromPosition := Lower(argv[1]);
      var toPosition := Lower(argv[2]);
      match ValidatePosition(fromPosition)
      case Invalid(reason) => InvalidFrom(reason)
      case Valid =>
        match ValidatePosition(toPosition)
        case Invalid(reason) => InvalidTo(reason)
        case Valid =>
          if fromPosition == toPosition then SamePosition
          else Moved(fromPosition, toPosition, MoveChessPiece(fromPosition, toPosition, config, fails))
  }

  /** A move is attempted exactly when there are two arguments that, once
      lower-cased, are distinct square names; the source is checked first,
      each refusal carries that name's verdict, and two valid equal names
      are refused as the same square. */
  lemma MainGuards(argv: seq<string>, config: Config, fails: Oracle)
    ensures var r := Main(argv, config, fails);
      r.Moved? <==>
        && |argv| == 3
        && IsSquareName(Lower(argv[1]))
        && IsSquareName(Lower(argv[2]))
        && Lower(argv[1]) != Lower(argv[2])
    ensures var r := Main(argv, config, fails);
      r.InvalidTo? ==> |argv| == 3 && IsSquareName(Lower(argv[1])) && !IsSquareName(Lower(argv[2]))
    ensures var r := Main(argv, config, fails);
      r.InvalidFrom? ==> |argv| == 3 && !IsSquareName(Lower(argv[1]))
    ensures var r := Main(argv, config, fails);
      r.InvalidFrom? ==> ValidatePosition(Lower(argv[1])) == Invalid(r.reason)
    ensures var r := Main(argv, config, fails);
      r.InvalidTo? ==> ValidatePosition(Lower(argv[2])) == Invalid(r.reason)
    ensures var r := Main(argv, config, fails);
      r == SamePosition <==> |argv| == 3 && IsSquareName(Lower(argv[1])) && Lower(argv[1]) == Lower(argv[2])
  {
    if |argv| == 3 {
      ValidateIsSyntactic(Lower(argv[1]));
      ValidateIsSyntactic(Lower(argv[2]));
    }
  }

  /** A move the program attempts never fails its table lookup, runs
      the plan whenever the command map knows both squares, and meets the
      conditions under which the plan names each square at one stage only
      (see Move.PlanLabels). */
  lemma MainPlan(argv: seq<string>, config: Config, fails: Oracle)
    ensures var r := Main(argv, config, fails);
      r.Moved? ==>
        && !r.result.NoPositionData?
        && (r.result.Executed? <==>
              config.Loaded? && r.fromPosition in config.commands && r.toPosition in config.commands)
        && r.fromPosition != r.toPosition
        && r.fromPosition !in FixedLabels && r.toPosition !in FixedLabels
  {
    MainGuards(argv, config, fails);
    if |argv| == 3 && Main(argv, config, fails).Moved? {
      SquareMove(Lower(argv[1]), Lower(argv[2]), config, fails);
      SquaresAreNotFixedLabels(Lower(argv[1]));
      SquaresAreNotFixedLabels(Lower(argv[2]));
    }
  }

  /** The sample command line "D7 d5" is lower-cased and moves d7 to d5. */
  lemma MainLowerCases(config: Config, fails: Oracle)
    ensures Main(["app.py", "D7", "d5"], config, fails) == Moved("d7", "d5", MoveChessPiece("d7", "d5", config, fails))
  {
    assert Lower("D7") == "d7" && Lower("d5") == "d5";
    ValidateIsSyntactic("d7");
    ValidateIsSyntactic("d5");
  }

  /** The sample command line "e4 E4" names one square twice, once
      lower-cased, and is refused. */
  lemma MainSameSquare(config: Config, fails: Oracle)
    ensures Main(["app.py", "e4", "E4"], config, fails) == SamePosition
  {
    assert Lower("E4") == "e4" && Lower("e4") == "e4";
    ValidateIsSyntactic("e4");
  }

  /** The refused sample command lines: a single argument is the wrong
      count, and "i9 d5" fails on the source column. */
  lemma MainRefusals(config: Config, fails: Oracle)
    ensures Main(["app.py", "d7"], config, fails) == WrongArgumentCount
    ensures Main(["app.py", "i9", "d5"], config, fails) == InvalidFrom(BadColumn('i'))
  {
    assert Lower("i9") == "i9";
  }
}

=== FILE: decimal.dfy ===
/** Decimal text of integers, as the controller renders motion arguments
    (Python's `str` of an int and the f-string `-{n}`), and the reading of
    such text back into an integer. */
module Decimal {

  datatype Option<T> = None | Some(value: T)

  predicate IsDigit(ch: char)
  {
    '0' <= ch <= '9'
  }

  predicate AllDigits(s: string)
  {
    forall i | 0 <= i < |s| :: IsDigit(s[i])
  }

  function DigitChar(d: nat): (ch: char)
    requires d < 10
    ensures IsDigit(ch)
  {
    "0123456789"[d]
  }

  function DigitValue(ch: char): (d: nat)
    requires IsDigit(ch)
    ensures d < 10
  {
    ch as int - '0' as int
  }

  /** The decimal digits of a natural number, without leading zeros. */
  function NatToString(n: nat): (s: string)
    ensures |s| > 0 && AllDigits(s)
    ensures s[0] == '0' <==> n == 0
    ensures n == 0 ==> s == "0"
    decreases n
  {
    if n < 10 then [DigitChar(n)] else NatToString(n / 10) + [DigitChar(n % 10)]
  }

  /** Python's `str` of an integer: a minus sign before the digits of a
      negative number, and no leading zero except in "0" itself. */
  function IntToString(n: int): (s: string)
    ensures |s| > 0
    ensures s[0] == '-' <==> n < 0
    ensures n >= 0 ==> AllDigits(s)
    ensures n < 0 ==> |s| > 1 && AllDigits(s[1..])
    ensures n < 0 ==> s[1] != '0'
    ensures n > 0 ==> s[0] != '0'
    ensures n == 0 ==> s == "0"
  {
    if n < 0 then "-" + NatToString(-n) else NatToString(n)
  }

  /** The value of a string of decimal digits. */
  function DigitsValue(s: string): (v: nat)
    requires AllDigits(s)
  {
    if |s| == 0 then 0 else 10 * DigitsValue(s[..|s| - 1]) + DigitValue(s[|s| - 1])
  }

  /** Reads an optionally signed decimal integer; anything else is rejected. */
  function ParseInt(s: string): (r: Option<int>)
  {
    if |s| > 0 && s[0] == '-' then
      if |s| > 1 && AllDigits(s[1..]) then Some(-(DigitsValue(s[1..]) as int)) else None
    else if |s| > 0 && AllDigits(s) then Some(DigitsValue(s))
    else None
  }

  lemma DigitRoundTrip(d: nat)
    requires d < 10
    ensures DigitValue(DigitChar(d)) == d
  {
  }

  /** The digits of a natural number read back as that number. */
  lemma {:induction false} NatRoundTrip(n: nat)
    ensures DigitsValue(NatToString(n)) == n
    decreases n
  {
    if n < 10 {
      DigitRoundTrip(n);
    } else {
      var s := NatToString(n);
      NatRoundTrip(n / 10);
      assert s[..|s| - 1] == NatToString(n / 10);
      DigitRoundTrip(n % 10);
    }
  }

  /** A minus sign written before the digits of a natural number reads as
      the number's negation, as the retreat argument `-{forward}` does. */
  lemma NegatedRoundTrip(n: nat)
    ensures ParseInt("-" + NatToString(n)) == Some(-(n as int))
  {
    var s := "-" + NatToString(n);
    assert s[1..] == NatToString(n);
    NatRoundTrip(n);
  }

  /** The digits of a natural number, unsigned, read back as that number. */
  lemma UnsignedRoundTrip(n: nat)
    ensures ParseInt(NatToString(n)) == Some(n)
  {
    var s := NatToString(n);
    assert IsDigit(s[0]);
    NatRoundTrip(n);
  }

  /** Rendering an integer and reading it back gives the integer. */
  lemma IntRoundTrip(n: int)
    ensures ParseInt(IntToString(n)) == Some(n)
  {
    if n < 0 {
      var m: nat := -n;
      assert IntToString(n) == "-" + NatToString(m);
      NegatedRoundTrip(m);
    } else {
      var m: nat := n;
      assert IntToString(n) == NatToString(m);
      UnsignedRoundTrip(m);
    }
  }

  /** Distinct integers render as distinct text. */
  lemma IntToStringInjective(a: int, b: int)
    requires IntToString(a) == IntToString(b)
    ensures a == b
  {
    IntRoundTrip(a);
    IntRoundTrip(b);
  }

}

=== FILE: executor.dfy ===
/** The sequence executor: replays a list of robot instructions step by
    step, each step a wait or one tool call on the actuator, each followed
    by the fixed settling pause; a call that raises ends the sequence. */
module Executor {

  /** Arguments of a tool call: parameter name to value. */
  type Args = map<string, string>

  /** One step of a sequence: a delay directive or a tool call. */
  datatype Instruction =
    | Wait(seconds: real)
    | Call(tool: string, args: Args)

  /** What the actuator side observes, in order. */
  datatype Event =
    | Waited(seconds: real)
    | Dispatched(tool: string, args: Args)
    | Paused   // the fixed settling pause after every completed step

  /** Decides, from everything observed so far, whether dispatching a tool
      with the given arguments raises. */
  type Oracle = (seq<Event>, string, Args) -> bool

  /** The result of replaying a sequence: it ran to the end, or the call at
      index `at` raised. */
  datatype Run =
    | Finished(events: seq<Event>)
    | Failed(events: seq<Event>, at: nat)

  /** The event that begins a step: a wait observes the step's own
      duration, a call dispatches the step's own tool and arguments. */
  function Announce(step: Instruction): (e: Event)
    ensures e.Waited? <==> step.Wait?
    ensures e.Dispatched? <==> step.Call?
    ensures e.Waited? ==> e.seconds == step.seconds
    ensures e.Dispatched? ==> e.tool == step.tool && e.args == step.args
  {
    match step
    case Wait(t) => Waited(t)
    case Call(tool, args) => Dispatched(tool, args)
  }

  /** The events of steps that all complete: each step's wait or call,
      followed by one pause. */
  function Replay(steps: seq<Instruction>): (events: seq<Event>)
  {
    if |steps| == 0 then [] else [Announce(steps[0]), Paused] + Replay(steps[1..])
  }

  /** The step at index j of `steps` is not a call that raises when
      dispatched after `history` and the earlier steps. */
  predicate Survives(history: seq<Event>, steps: seq<Instruction>, j: nat, fails: Oracle)
    requires j < |steps|
  {
    steps[j].Call? ==> !fails(history + Replay(steps[..j]), steps[j].tool, steps[j].args)
  }

  /** Replays `steps` after `history`, stopping at the first call that
      raises; that call is observed but no pause follows it. */
  function RunSequence(history: seq<Event>, steps: seq<Instruction>, fails: Oracle): (r: Run)
    ensures r.Failed? ==> r.at < |steps| && steps[r.at].Call?
    decreases |steps|
  {
    if |steps| == 0 then Finished([])
    else
      var step := steps[0];
      if step.Call? && fails(history, step.tool, step.args) then
        Failed([Announce(step)], 0)
      else
        var done := [Announce(step), Paused];
        After(done, 1, RunSequence(history + done, steps[1..], fails))
  }

  /** A run of later steps seen from the start: `events` observed and
      `count` steps completed before it began. */
  function After(events: seq<Event>, count: nat, r: Run): (s: Run)
    ensures s.Finished? == r.Finished?
  {
    match r
    case Finished(later) => Finished(events + later)
    case Failed(later, at) => Failed(events + later, count + at)
  }

  /** Prefixing twice is prefixing once with both prefixes. */
  lemma AfterAfter(first: seq<Event>, m: nat, second: seq<Event>, n: nat, r: Run)
    ensures After(first, m, After(second, n, r)) == After(first + second, m + n, r)
  {
    match r
    case Finished(later) =>
      assert first + (second + later) == first + second + later;
    case Failed(later, at) =>
      assert first + (second + later) == first + second + later;
  }

  /** What a replay observes: when no call raises, every step's wait or
      call followed by a pause; otherwise the completed steps, then the
      first call that raises, with no pause after it. */
  lemma {:induction false} RunSequenceSpec(history: seq<Event>, steps: seq<Instruction>, fails: Oracle)
    ensures var r := RunSequence(history, steps, fails);
      r.Finished? ==>
        && r.events == Replay(steps)
        && forall j | 0 <= j < |steps| :: Survives(history, steps, j, fails)
    ensures var r := RunSequence(history, steps, fails);
      r.Failed? ==>
        && r.at < |steps|
        && steps[r.at].Call?
        && r.events == Replay(steps[..r.at]) + [Announce(steps[r.at])]
        && fails(history + Replay(steps[..r.at]), steps[r.at].tool, steps[r.at].args)
        && forall j | 0 <= j < r.at :: Survives(history, steps, j, fails)
    decreases |steps|
  {
    if |steps| > 0 {
      var step := steps[0];
      var rest := steps[1..];
      ShiftSurvives(history, steps, fails);
      assert history + Replay(steps[..0]) == history;
      if !(step.Call? && fails(history, step.tool, step.args)) {
        var done := [Announce(step), Paused];
        RunSequenceSpec(history + done, rest, fails);
        match RunSequence(history + done, rest, fails)
        case Finished(events) =>
        case Failed(events, at) =>
          assert steps[at + 1] == rest[at];
          assert history + Replay(steps[..at + 1]) == history + done + Replay(rest[..at]);
      }
    }
  }

  /** Replaying a prefix one step longer than the first step peels that
      step off, and the rest of the steps survive exactly when they do as a
      suffix replayed after the first step. */
  lemma PrefixReplay(steps: seq<Instruction>)
    requires |steps| > 0
    ensures steps[..0] == []
    ensures forall j | 0 <= j < |steps| - 1 ::
      Replay(steps[..j + 1]) == [Announce(steps[0]), Paused] + Replay(steps[1..][..j])
  {
    forall j | 0 <= j < |steps| - 1
      ensures Replay(steps[..j + 1]) == [Announce(steps[0]), Paused] + Replay(steps[1..][..j])
    {
      assert steps[..j + 1][1..] == steps[1..][..j];
    }
  }

  /** Whether a later step survives is the same whether it is seen in the
      whole list or in the list without its first step, replayed after that
      step's events. */
  lemma ShiftSurvives(history: seq<Event>, steps: seq<Instruction>, fails: Oracle)
    requires |steps| > 0
    ensures forall j | 0 <= j < |steps| - 1 ::
      Replay(steps[..j + 1]) == [Announce(steps[0]), Paused] + Replay(steps[1..][..j])
    ensures forall j | 1 <= j < |steps| ::
      Survives(history, steps, j, fails) <==>
      Survives(history + [Announce(steps[0]), Paused], steps[1..], j - 1, fails)
  {
    PrefixReplay(steps);
    var done := [Announce(steps[0]), Paused];
    forall j | 1 <= j < |steps|
      ensures Survives(history, steps, j, fails) <==> Survives(history + done, steps[1..], j - 1, fails)
    {
      assert steps[1..][j - 1] == steps[j];
      assert history + Replay(steps[..j]) == history + done + Replay(steps[1..][..j - 1]);
    }
  }

  /** Every completed step contributes exactly two events: its wait or call,
      then a pause; waits dispatch no tool. */
  lemma {:induction false} ReplayLayout(steps: seq<Instruction>)
    ensures |Replay(steps)| == 2 * |steps|
    ensures forall i | 0 <= i < |steps| ::
      Replay(steps)[2 * i] == Announce(steps[i]) && Replay(steps)[2 * i + 1] == Paused
  {
    if |steps| > 0 {
      ReplayLayout(steps[1..]);
      var r := Replay(steps);
      forall i | 1 <= i < |steps|
        ensures r[2 * i] == Announce(steps[i]) && r[2 * i + 1] == Paused
      {
        assert steps[1..][i - 1] == steps[i];
        assert r[2 * i] == Replay(steps[1..])[2 * (i - 1)];
        assert r[2 * i + 1] == Replay(steps[1..])[2 * (i - 1) + 1];
      }
    }
  }

  /** Replaying two lists of steps one after the other replays their
      concatenation. */
  lemma {:induction false} ReplayAppend(a: seq<Instruction>, b: seq<Instruction>)
    ensures Replay(a + b) == Replay(a) + Replay(b)
  {
    if |a| == 0 {
      assert a + b == b;
    } else {
      assert (a + b)[1..] == a[1..] + b;
      ReplayAppend(a[1..], b);
    }
  }

  /** A sequence whose first part fails fails the same way, at the same
      step, with the same events, whatever follows it. */
  lemma {:induction false} RunAppendFailed(history: seq<Event>, a: seq<Instruction>, b: seq<Instruction>, fails: Oracle)
    requires RunSequence(history, a, fails).Failed?
    ensures RunSequence(history, a + b, fails) == RunSequence(history, a, fails)
    decreases |a|
  {
    var step := a[0];
    assert (a + b)[0] == step;
    assert (a + b)[1..] == a[1..] + b;
    if !(step.Call? && fails(history, step.tool, step.args)) {
      RunAppendFailed(history + [Announce(step), Paused], a[1..], b, fails);
    }
  }

  /** A first step that completes contributes its two events and shifts
      the index of a later failure by one. */
  lemma RunStep(history: seq<Event>, steps: seq<Instruction>, fails: Oracle)
    requires |steps| > 0
    requires !(steps[0].Call? && fails(history, steps[0].tool, steps[0].args))
    ensures var done := [Announce(steps[0]), Paused];
      RunSequence(history, steps, fails) == After(done, 1, RunSequence(history + done, steps[1..], fails))
  {
  }

  /** When the first part of a sequence finishes, running the whole
      sequence continues with the second part, after the first part's
      events and steps. */
  lemma {:induction false} RunAppendFinished(history: seq<Event>, a: seq<Instruction>, b: seq<Instruction>, fails: Oracle)
    requires RunSequence(history, a, fails).Finished?
    ensures var first := RunSequence(history, a, fails).events;
      RunSequence(history, a + b, fails) == After(first, |a|, RunSequence(history + first, b, fails))
    decreases |a|
  {
    if |a| == 0 {
      assert a + b == b;
      assert history + [] == history;
      var r := RunSequence(history, b, fails);
      assert After([], 0, r) == r by {
        match r
        case Finished(later) => assert [] + later == later;
        case Failed(later, at) => assert [] + later == later;
      }
    } else {
      var done := [Announce(a[0]), Paused];
      assert (a + b)[0] == a[0];
      assert (a + b)[1..] == a[1..] + b;
      RunStep(history, a, fails);
      RunStep(history, a + b, fails);
      var rest := RunSequence(history + done, a[1..], fails);
      RunAppendFinished(history + done, a[1..], b, fails);
      assert history + done + rest.events == history + (done + rest.events);
      AfterAfter(done, 1, rest.events, |a| - 1, RunSequence(history + (done + rest.events), b, fails));
    }
  }
}

=== FILE: home.dfy ===
/** The home sequence: the retreat synthesised from a square's table entry,
    lifting and tilting the gripper, backing off the forward distance and,
    when the base was turned, turning it back. */
module Home {
  import opened Decimal
  import opened Executor

  /** A call of the one tool the home sequence drives, with one argument. */
  function MoveRobot(parameter: string, value: string): (step: Instruction)
  {
    Call("move_robot", map[parameter := value])
  }

  /** The three fixed opening moves: gripper up 50 mm, tilt down -80
      degrees, gripper up -75 mm (that is, down 75 mm). */
  const Lift: seq<Instruction> := [
    MoveRobot("move_gripper_up_mm", "50"),
    MoveRobot("tilt_gripper_down_angle", "-80"),
    MoveRobot("move_gripper_up_mm", "-75")
  ]

  /** The home sequence for a square reached by `forwardDistance` mm of
      travel after turning the base by `rotationAngle` degrees: the lift,
      the retreat by the forward distance, and a turn by the negated angle
      only when the angle is not zero. */
  function CreateHomeSequence(forwardDistance: int, rotationAngle: int): (s: seq<Instruction>)
    ensures |s| == if rotationAngle == 0 then 4 else 5
    ensures s[..3] == Lift
    ensures s[3] == MoveRobot("move_gripper_forward_mm", "-" + IntToString(forwardDistance))
    ensures |s| == 5 ==> s[4] == MoveRobot("rotate_robot_right_angle", IntToString(-rotationAngle))
  {
    var rotationReset := if rotationAngle != 0 then -rotationAngle else 0;
    var home := Lift + [MoveRobot("move_gripper_forward_mm", "-" + IntToString(forwardDistance))];
    if rotationReset != 0 then
      home + [MoveRobot("rotate_robot_right_angle", IntToString(rotationReset))]
    else
      home
  }

  /** The integer a step's argument denotes, when the step is a call with
      that argument and its text is a decimal integer. */
  function ArgumentValue(step: Instruction, parameter: string): (v: Option<int>)
  {
    if step.Call? && parameter in step.args then ParseInt(step.args[parameter]) else None
  }

  /** Read as a number, the retreat of a home sequence backs off exactly
      the forward distance (for the non-negative distances of the table). */
  lemma HomeRetreats(forwardDistance: int, rotationAngle: int)
    requires forwardDistance >= 0
    ensures var s := CreateHomeSequence(forwardDistance, rotationAngle);
      ArgumentValue(s[3], "move_gripper_forward_mm") == Some(-forwardDistance)
  {
    var s := CreateHomeSequence(forwardDistance, rotationAngle);
    var back := "-" + NatToString(forwardDistance);
    assert s[3] == MoveRobot("move_gripper_forward_mm", back);
    NegatedRoundTrip(forwardDistance);
    assert ArgumentValue(s[3], "move_gripper_forward_mm") == ParseInt(back);
  }

  /** A home sequence turns the base exactly when the approach turned it,
      and then by an angle, read as a number, that cancels the approach's
      rotation. */
  lemma HomeTurnsBack(forwardDistance: int, rotationAngle: int)
    ensures var s := CreateHomeSequence(forwardDistance, rotationAngle);
      && (|s| == 5 <==> rotationAngle != 0)
      && (|s| == 5 ==>
            && ArgumentValue(s[4], "rotate_robot_right_angle").Some?
            && ArgumentValue(s[4], "rotate_robot_right_angle").value + rotationAngle == 0)
  {
    var s := CreateHomeSequence(forwardDistance, rotationAngle);
    if rotationAngle != 0 {
      var turn := IntToString(-rotationAngle);
      assert s[4] == MoveRobot("rotate_robot_right_angle", turn);
      IntRoundTrip(-rotationAngle);
      assert ArgumentValue(s[4], "rotate_robot_right_angle") == ParseInt(turn);
    }
  }

  /** Every step of a home sequence is a call of the one actuator tool; a
      home sequence never waits. */
  lemma HomeDrivesOneTool(forwardDistance: int, rotationAngle: int)
    ensures var s := CreateHomeSequence(forwardDistance, rotationAngle);
      forall i | 0 <= i < |s| :: s[i].Call? && s[i].tool == "move_robot"
  {
    var s := CreateHomeSequence(forwardDistance, rotationAngle);
    forall i | 0 <= i < |s|
      ensures s[i].Call? && s[i].tool == "move_robot"
    {
      if i < 3 {
        assert s[i] == Lift[i];
      }
    }
  }

  /** No step of a home sequence turns the base by zero degrees. */
  lemma HomeNeverTurnsByZero(forwardDistance: int, rotationAngle: int)
    ensures var s := CreateHomeSequence(forwardDistance, rotationAngle);
      forall i | 0 <= i < |s| :: ArgumentValue(s[i], "rotate_robot_right_angle") != Some(0)
  {
    var s := CreateHomeSequence(forwardDistance, rotationAngle);
    HomeTurnsBack(forwardDistance, rotationAngle);
    forall i | 0 <= i < |s|
      ensures ArgumentValue(s[i], "rotate_robot_right_angle") != Some(0)
    {
      if i < 3 {
        assert s[i] == Lift[i];
        assert "rotate_robot_right_angle" !in s[i].args;
      } else if i == 3 {
        assert "rotate_robot_right_angle" !in s[i].args;
      }
    }
  }

  /** The two sample retreats: from a square 70 mm out at -90 degrees the
      fifth step turns the base by 90 degrees; at 0 degrees there are four
      steps. */
  lemma HomeSamples()
    ensures |CreateHomeSequence(70, -90)| == 5
    ensures CreateHomeSequence(70, -90)[4] == MoveRobot("rotate_robot_right_angle", "90")
    ensures CreateHomeSequence(70, -90)[3] == MoveRobot("move_gripper_forward_mm", "-70")
    ensures |CreateHomeSequence(70, 0)| == 4
  {
    assert NatToString(9) == "9" && NatToString(7) == "7";
    assert IntToString(90) == "90" && "-" + IntToString(70) == "-70";
  }
}

=== FILE: move.dfy ===
/** The move orchestrator: the fixed eleven-stage pick-and-place plan, each
    stage a named sequence from the command map or a synthesised home
    sequence, run one after the other until a call raises. */
module Move {
  import opened Positions
  import opened Executor
  import opened Home

  /** The command map: label to the sequence of steps stored under it. */
  type Commands = map<string, seq<Instruction>>

  /** One stage of the plan. */
  datatype Stage =
    | Named(name: string)                     // the sequence stored under a label
    | HomeFrom(position: string, entry: Entry) // the home sequence for a square

  /** The labels of the plan that are not square names. */
  const FixedLabels: set<string> := {"attack", "open", "close", "move_for_cam"}

  /** The pick-and-place plan: attack, open, the source square, close, home
      from the source, attack, the destination square, open, home from the
      destination, close, move for the camera. */
  function MovePlan(fromPosition: string, toPosition: string, fromData: Entry, toData: Entry): (plan: seq<Stage>)
    ensures |plan| == 11
    ensures forall i | 0 <= i < 11 :: plan[i].HomeFrom? <==> i == 4 || i == 8
  {
    [ Named("attack"), Named("open"), Named(fromPosition), Named("close"),
      HomeFrom(fromPosition, fromData),
      Named("attack"), Named(toPosition), Named("open"),
      HomeFrom(toPosition, toData),
      Named("close"), Named("move_for_cam") ]
  }

  /** The steps a stage replays: the stored sequence, nothing when its
      label is missing from the map, or the home sequence of its entry. */
  function StageSteps(stage: Stage, commands: Commands): (steps: seq<Instruction>)
  {
    match stage
    case Named(name) => if name in commands then commands[name] else []
    case HomeFrom(_, entry) => CreateHomeSequence(entry.forward, entry.rotation)
  }

  /** A stage whose label the command map lacks. */
  predicate Missing(stage: Stage, commands: Commands)
  {
    stage.Named? && stage.name !in commands
  }

  /** How one stage of a plan ended. */
  datatype StageStatus =
    | Ran      // its sequence ran to the end
    | Skipped  // its label was missing: reported, nothing dispatched
    | Aborted  // a call of its sequence raised

  /** What running a plan observed, and how each stage that began ended. */
  datatype PlanRun = PlanRun(events: seq<Event>, statuses: seq<StageStatus>)

  /** Runs the stages in order after `history`. A missing label skips its
      stage and the next one starts; a call that raises ends the stage and
      the plan. */
  function RunStages(history: seq<Event>, stages: seq<Stage>, commands: Commands, fails: Oracle): (r: PlanRun)
    ensures |r.statuses| <= |stages|
    decreases |stages|
  {
    if |stages| == 0 then PlanRun([], [])
    else if Missing(stages[0], commands) then
      var rest := RunStages(history, stages[1..], commands, fails);
      PlanRun(rest.events, [Skipped] + rest.statuses)
    else
      match RunSequence(history, StageSteps(stages[0], commands), fails)
      case Failed(events, _) => PlanRun(events, [Aborted])
      case Finished(events) =>
        var rest := RunStages(history + events, stages[1..], commands, fails);
        PlanRun(events + rest.events, [Ran] + rest.statuses)
  }

  /** Each stage that began is reported skipped exactly when its label is
      missing. */
  lemma {:induction false} SkippedIffMissing(history: seq<Event>, stages: seq<Stage>, commands: Commands, fails: Oracle)
    ensures var r := RunStages(history, stages, commands, fails);
      forall i | 0 <= i < |r.statuses| :: r.statuses[i] == Skipped <==> Missing(stages[i], commands)
    decreases |stages|
  {
    if |stages| > 0 {
      var r := RunStages(history, stages, commands, fails);
      if Missing(stages[0], commands) {
        SkippedIffMissing(history, stages[1..], commands, fails);
        var rest := RunStages(history, stages[1..], commands, fails);
        assert r.statuses == [Skipped] + rest.statuses;
        forall i | 1 <= i < |r.statuses|
          ensures r.statuses[i] == rest.statuses[i - 1] && stages[i] == stages[1..][i - 1]
        {
        }
      } else {
        match RunSequence(history, StageSteps(stages[0], commands), fails)
        case Failed(events, _) =>
        case Finished(events) =>
          SkippedIffMissing(history + events, stages[1..], commands, fails);
          var rest := RunStages(history + events, stages[1..], commands, fails);
          assert r.statuses == [Ran] + rest.statuses;
          forall i | 1 <= i < |r.statuses|
            ensures r.statuses[i] == rest.statuses[i - 1] && stages[i] == stages[1..][i - 1]
          {
          }
      }
    }
  }

  /** Only the last stage that began can have aborted. */
  lemma {:induction false} AbortIsLast(history: seq<Event>, stages: seq<Stage>, commands: Commands, fails: Oracle)
    ensures var r := RunStages(history, stages, commands, fails);
      forall i | 0 <= i < |r.statuses| :: r.statuses[i] == Aborted ==> i == |r.statuses| - 1
    decreases |stages|
  {
    if |stages| > 0 {
      var r := RunStages(history, stages, commands, fails);
      var next := if Missing(stages[0], commands) then history
        else history + RunSequence(history, StageSteps(stages[0], commands), fails).events;
      var rest := RunStages(next, stages[1..], commands, fails);
      if |r.statuses| > 1 {
        AbortIsLast(next, stages[1..], commands, fails);
        assert var r2 := RunStages(next, stages[1..], commands, fails);
          forall i | 0 <= i < |r2.statuses| :: r2.statuses[i] == Aborted ==> i == |r2.statuses| - 1;
        assert r.statuses == [r.statuses[0]] + rest.statuses;
        assert r.statuses[0] != Aborted;
        forall i | 1 <= i < |r.statuses| && r.statuses[i] == Aborted
          ensures i == |r.statuses| - 1
        {
          assert rest.statuses[i - 1] == Aborted;
        }
      }
    }
  }

  /** Stages stop beginning only after an abort. */
  lemma {:induction false} AbortEndsPlan(history: seq<Event>, stages: seq<Stage>, commands: Commands, fails: Oracle)
    ensures var r := RunStages(history, stages, commands, fails);
      |r.statuses| < |stages| ==> |r.statuses| > 0 && r.statuses[|r.statuses| - 1] == Aborted
    decreases |stages|
  {
    if |stages| > 0 {
      var r := RunStages(history, stages, commands, fails);
      if Missing(stages[0], commands) {
        AbortEndsPlan(history, stages[1..], commands, fails);
        var rest := RunStages(history, stages[1..], commands, fails);
        assert r.statuses == [Skipped] + rest.statuses;
        if |rest.statuses| > 0 {
          assert r.statuses[|r.statuses| - 1] == rest.statuses[|rest.statuses| - 1];
        }
      } else {
        match RunSequence(history, StageSteps(stages[0], commands), fails)
        case Failed(events, _) =>
        case Finished(events) =>
          AbortEndsPlan(history + events, stages[1..], commands, fails);
          var rest := RunStages(history + events, stages[1..], commands, fails);
          assert r.statuses == [Ran] + rest.statuses;
          if |rest.statuses| > 0 {
            assert r.statuses[|r.statuses| - 1] == rest.statuses[|rest.statuses| - 1];
          }
      }
    }
  }

  /** The steps of all stages, in order. */
  function AllSteps(stages: seq<Stage>, commands: Commands): (steps: seq<Instruction>)
  {
    if |stages| == 0 then [] else StageSteps(stages[0], commands) + AllSteps(stages[1..], commands)
  }

  /** Running a plan stage by stage observes exactly what running all its
      stages' steps as one sequence observes, and aborts exactly when that
      sequence fails: skipped stages contribute nothing, and a failure ends
      everything after it. */
  lemma {:induction false} StagesAreOneSequence(history: seq<Event>, stages: seq<Stage>, commands: Commands, fails: Oracle)
    ensures var r := RunStages(history, stages, commands, fails);
      var whole := RunSequence(history, AllSteps(stages, commands), fails);
      && r.events == whole.events
      && (Aborted in r.statuses <==> whole.Failed?)
    decreases |stages|
  {
    if |stages| > 0 {
      var first := StageSteps(stages[0], commands);
      var restSteps := AllSteps(stages[1..], commands);
      if Missing(stages[0], commands) {
        assert first == [];
        assert first + restSteps == restSteps;
        StagesAreOneSequence(history, stages[1..], commands, fails);
      } else {
        match RunSequence(history, first, fails)
        case Failed(events, _) =>
          RunAppendFailed(history, first, restSteps, fails);
        case Finished(events) =>
          RunAppendFinished(history, first, restSteps, fails);
          StagesAreOneSequence(history + events, stages[1..], commands, fails);
      }
    }
  }

  /** The plan names the source square at stage 3 and the destination at
      stage 7 (indices 2 and 6) and nowhere else, every other named stage
      uses a fixed label, in the order attack, open, close, attack, open,
      close, move for the camera, and the two home stages carry the two
      squares' entries. */
  lemma PlanLabels(fromPosition: string, toPosition: string, fromData: Entry, toData: Entry)
    requires fromPosition != toPosition
    requires fromPosition !in FixedLabels && toPosition !in FixedLabels
    ensures var plan := MovePlan(fromPosition, toPosition, fromData, toData);
      && (forall i | 0 <= i < 11 :: plan[i] == Named(fromPosition) <==> i == 2)
      && (forall i | 0 <= i < 11 :: plan[i] == Named(toPosition) <==> i == 6)
      && (forall i | 0 <= i < 11 && plan[i].Named? && i != 2 && i != 6 :: plan[i].name in FixedLabels)
      && plan[0] == Named("attack") && plan[1] == Named("open") && plan[3] == Named("close")
      && plan[5] == Named("attack") && plan[7] == Named("open")
      && plan[9] == Named("close") && plan[10] == Named("move_for_cam")
      && plan[4] == HomeFrom(fromPosition, fromData)
      && plan[8] == HomeFrom(toPosition, toData)
  {
  }

  /** Square names are never fixed labels. */
  lemma SquaresAreNotFixedLabels(p: string)
    requires IsSquareName(p)
    ensures p !in FixedLabels
  {
  }

  /** What a plan run observes: when no stage aborts, every stage began
      and the events replay all the stages' steps, each a wait or a call
      followed by a pause; when a stage aborts, the events replay the steps
      before the first call that raised, then that call. */
  lemma {:induction false} PlanTrace(history: seq<Event>, stages: seq<Stage>, commands: Commands, fails: Oracle)
    ensures var r := RunStages(history, stages, commands, fails);
      var steps := AllSteps(stages, commands);
      Aborted !in r.statuses ==>
        && |r.statuses| == |stages|
        && r.events == Replay(steps)
        && (forall i | 0 <= i < |stages| :: r.statuses[i] == if Missing(stages[i], commands) then Skipped else Ran)
        && forall j | 0 <= j < |steps| :: Survives(history, steps, j, fails)
    ensures var r := RunStages(history, stages, commands, fails);
      var steps := AllSteps(stages, commands);
      Aborted in r.statuses ==>
        exists k | 0 <= k < |steps| ::
          && steps[k].Call?
          && r.events == Replay(steps[..k]) + [Announce(steps[k])]
          && fails(history + Replay(steps[..k]), steps[k].tool, steps[k].args)
          && forall j | 0 <= j < k :: Survives(history, steps, j, fails)
  {
    var r := RunStages(history, stages, commands, fails);
    var steps := AllSteps(stages, commands);
    StagesAreOneSequence(history, stages, commands, fails);
    SkippedIffMissing(history, stages, commands, fails);
    AbortEndsPlan(history, stages, commands, fails);
    RunSequenceSpec(history, steps, fails);
    if Aborted in r.statuses {
      var k := RunSequence(history, steps, fails).at;
      assert steps[k].Call?;
    } else {
      forall i | 0 <= i < |stages|
        ensures r.statuses[i] == if Missing(stages[i], commands) then Skipped else Ran
      {
        assert r.statuses[i] in r.statuses;
      }
    }
  }

  /** An oracle under which every call succeeds. */
  function NeverFails(): (o: Oracle)
    ensures forall history, tool, args :: !o(history, tool, args)
  {
    (history: seq<Event>, tool: string, args: Args) => false
  }

  /** With no failing call a sequence always runs to the end. */
  lemma {:induction false} NoFailureFinishes(history: seq<Event>, steps: seq<Instruction>)
    ensures RunSequence(history, steps, NeverFails()).Finished?
    decreases |steps|
  {
    if |steps| > 0 {
      NoFailureFinishes(history + [Announce(steps[0]), Paused], steps[1..]);
    }
  }

  /** Where the configuration stands once loading was attempted. */
  datatype Config =
    | Loaded(commands: Commands)
    | FileNotFound   // the command file does not exist
    | InvalidJson    // the command file is not valid JSON

  /** How a move ended. */
  datatype MoveResult =
    | ConfigMissing                    // reported; nothing moved
    | ConfigInvalid                    // reported; nothing moved
    | UnknownPosition(name: string)    // a square the command map lacks; nothing moved
    | NoPositionData(position: string) // a square the table lacks; the lookup raises
    | Executed(run: PlanRun)           // the plan ran, possibly aborting

  /** Moves a piece: loads the command map, checks that both squares are
      labels of it, looks both up in the table, and runs the plan. */
  function MoveChessPiece(fromPosition: string, toPosition: string, config: Config, fails: Oracle): (r: MoveResult)
    ensures r.Executed? <==>
      && config.Loaded?
      && fromPosition in config.commands && toPosition in config.commands
      && fromPosition in PositionData && toPosition in PositionData
    ensures r == ConfigMissing <==> config.FileNotFound?
    ensures r == ConfigInvalid <==> config.InvalidJson?
    ensures config.Loaded? && fromPosition !in config.commands ==> r == UnknownPosition(fromPosition)
    ensures config.Loaded? && fromPosition in config.commands && toPosition !in config.commands ==>
      r == UnknownPosition(toPosition)
    ensures r.UnknownPosition? ==>
      config.Loaded? &&
      (if fromPosition !in config.commands then r.name == fromPosition
       else r.name == toPosition && toPosition !in config.commands)
    ensures r.NoPositionData? ==>
      && config.Loaded? && fromPosition in config.commands && toPosition in config.commands
      && (if fromPosition !in PositionData then r.position == fromPosition
          else r.position == toPosition && toPosition !in PositionData)
    ensures r.Executed? ==>
      r.run == RunStages([],
        MovePlan(fromPosition, toPosition, PositionData[fromPosition], PositionData[toPosition]),
        config.commands, fails)
  {
    match config
    case FileNotFound => ConfigMissing
    case InvalidJson => ConfigInvalid
    case Loaded(commands) =>
      if fromPosition !in commands then UnknownPosition(fromPosition)
      else if toPosition !in commands then UnknownPosition(toPosition)
      else if fromPosition !in PositionData then NoPositionData(fromPosition)
      else if toPosition !in PositionData then NoPositionData(toPosition)
      else
        var fromData := PositionData[fromPosition];
        var toData := PositionData[toPosition];
        Executed(RunStages([], MovePlan(fromPosition, toPosition, fromData, toData), commands, fails))
  }

  /** When no call raises, every stage of a plan begins, and a stage is
      skipped exactly when its label is missing. */
  lemma {:induction false} NoFailureStatuses(history: seq<Event>, stages: seq<Stage>, commands: Commands)
    ensures var statuses := RunStages(history, stages, commands, NeverFails()).statuses;
      && |statuses| == |stages|
      && forall i | 0 <= i < |stages| :: statuses[i] == if Missing(stages[i], commands) then Skipped else Ran
    decreases |stages|
  {
    if |stages| > 0 {
      var steps := StageSteps(stages[0], commands);
      NoFailureFinishes(history, steps);
      var next := if Missing(stages[0], commands) then history
        else history + RunSequence(history, steps, NeverFails()).events;
      NoFailureStatuses(next, stages[1..], commands);
    }
  }

  /** A move between two square names never fails its table lookup: it
      stops on the configuration or the command map, or it runs the plan. */
  lemma SquareMove(fromPosition: string, toPosition: string, config: Config, fails: Oracle)
    requires IsSquareName(fromPosition) && IsSquareName(toPosition)
    ensures var r := MoveChessPiece(fromPosition, toPosition, config, fails);
      && !r.NoPositionData?
      && (r.Executed? <==> config.Loaded? && fromPosition in config.commands && toPosition in config.commands)
  {
    SquareInTable(fromPosition);
    SquareInTable(toPosition);
  }

  /** A command map without "close" does not stop the plan: when no call
      raises, both close stages (4 and 10) are skipped and every other stage
      runs. */
  lemma MissingCloseSkippedInPlan(fromPosition: string, toPosition: string, fromData: Entry, toData: Entry, commands: Commands)
    requires fromPosition in commands && toPosition in commands
    requires "attack" in commands && "open" in commands && "move_for_cam" in commands
    requires "close" !in commands
    ensures RunStages([], MovePlan(fromPosition, toPosition, fromData, toData), commands, NeverFails()).statuses
      == [Ran, Ran, Ran, Skipped, Ran, Ran, Ran, Ran, Ran, Skipped, Ran]
  {
    var plan := MovePlan(fromPosition, toPosition, fromData, toData);
    var statuses := RunStages([], plan, commands, NeverFails()).statuses;
    NoFailureStatuses([], plan, commands);
    assert statuses[0] == Ran && statuses[1] == Ran && statuses[2] == Ran;
    assert statuses[3] == Skipped && statuses[4] == Ran && statuses[5] == Ran;
    assert statuses[6] == Ran && statuses[7] == Ran && statuses[8] == Ran;
    assert statuses[9] == Skipped && statuses[10] == Ran;
  }

  /** A move between two squares the command map knows still runs when the
      map lacks "close": the close stages are skipped, the rest run. */
  lemma MissingCloseIsSkipped(fromPosition: string, toPosition: string, commands: Commands)
    requires IsSquareName(fromPosition) && IsSquareName(toPosition)
    requires fromPosition in commands && toPosition in commands
    requires "attack" in commands && "open" in commands && "move_for_cam" in commands
    requires "close" !in commands
    ensures var r := MoveChessPiece(fromPosition, toPosition, Loaded(commands), NeverFails());
      && r.Executed?
      && r.run.statuses == [Ran, Ran, Ran, Skipped, Ran, Ran, Ran, Ran, Ran, Skipped, Ran]
  {
    SquareInTable(fromPosition);
    SquareInTable(toPosition);
    MissingCloseSkippedInPlan(fromPosition, toPosition,
      PositionData[fromPosition], PositionData[toPosition], commands);
  }
}

=== FILE: positions.dfy ===
/** The position table: for every board square, how far the gripper travels
    forward (millimetres) and how far the base turns right (degrees) to
    reach it. */
module Positions {

  /** Motion parameters of one square. */
  datatype Entry = Entry(forward: int, rotation: int)

  /** One key/value pair of the table display. */
  type Pair = (string, Entry)

  /** The characters a square name is built from, as the validator spells them. */
  const Columns: string := "abcdefgh"
  const RowDigits: string := "12345678"

  /** The base rotation of each column, in the order of `Columns`; no other
      rotation occurs in the table. */
  const Angles: seq<int> := [-90, -45, -22, 0, 22, 45, 67, 90]

  /** Every two-character name made of a column letter and a row digit. */
  predicate IsSquareName(p: string)
  {
    |p| == 2 && p[0] in Columns && p[1] in RowDigits
  }

  // The table display, in the order it is written: column by column, each
  // column from row 8 (nearest the robot) down to row 1.

  /** Column a, at the table's left edge: the base turns 90 degrees to the left. */
  const ColumnA: seq<Pair> := [
    ("a8", Entry(30, -90)),
    ("a7", Entry(70, -90)),
    ("a6", Entry(120, -90)),
    ("a5", Entry(150, -90)),
    ("a4", Entry(180, -90)),
    ("a3", Entry(210, -90)),
    ("a2", Entry(240, -90)),
    ("a1", Entry(270, -90))
  ]

  /** Column b: the base turns 45 degrees to the left. */
  const ColumnB: seq<Pair> := [
    ("b8", Entry(42, -45)),
    ("b7", Entry(98, -45)),
    ("b6", Entry(169, -45)),
    ("b5", Entry(212, -45)),
    ("b4", Entry(254, -45)),
    ("b3", Entry(297, -45)),
    ("b2", Entry(339, -45)),
    ("b1", Entry(382, -45))
  ]

  /** Column c: the base turns 22 degrees to the left. */
  const ColumnC: seq<Pair> := [
    ("c8", Entry(32, -22)),
    ("c7", Entry(76, -22)),
    ("c6", Entry(130, -22)),
    ("c5", Entry(163, -22)),
    ("c4", Entry(195, -22)),
    ("c3", Entry(228, -22)),
    ("c2", Entry(260, -22)),
    ("c1", Entry(292, -22))
  ]

  /** Column d: the base does not turn; the arm points straight along it. */
  const ColumnD: seq<Pair> := [
    ("d8", Entry(30, 0)),
    ("d7", Entry(70, 0)),
    ("d6", Entry(120, 0)),
    ("d5", Entry(150, 0)),
    ("d4", Entry(180, 0)),
    ("d3", Entry(210, 0)),
    ("d2", Entry(240, 0)),
    ("d1", Entry(270, 0))
  ]

  /** Column e: the base turns 22 degrees to the right. */
  const ColumnE: seq<Pair> := [
    ("e8", Entry(32, 22)),
    ("e7", Entry(76, 22)),
    ("e6", Entry(130, 22)),
    ("e5", Entry(163, 22)),
    ("e4", Entry(195, 22)),
    ("e3", Entry(228, 22)),
    ("e2", Entry(260, 22)),
    ("e1", Entry(292, 22))
  ]

  /** Column f: the base turns 45 degrees to the right. */
  const ColumnF: seq<Pair> := [
    ("f8", Entry(42, 45)),
    ("f7", Entry(98, 45)),
    ("f6", Entry(169, 45)),
    ("f5", Entry(212, 45)),
    ("f4", Entry(254, 45)),
    ("f3", Entry(297, 45)),
    ("f2", Entry(339, 45)),
    ("f1", Entry(382, 45))
  ]

  /** Column g: the base turns 67 degrees to the right. */
  const ColumnG: seq<Pair> := [
    ("g8", Entry(78, 67)),
    ("g7", Entry(179, 67)),
    ("g6", Entry(307, 67)),
    ("g5", Entry(384, 67)),
    ("g4", Entry(461, 67)),
    ("g3", Entry(538, 67)),
    ("g2", Entry(614, 67)),
    ("g1", Entry(691, 67))
  ]

  /** Column h, at the table's right edge: the base turns 90 degrees to the right. */
  const ColumnH: seq<Pair> := [
    ("h8", Entry(30, 90)),
    ("h7", Entry(70, 90)),
    ("h6", Entry(120, 90)),
    ("h5", Entry(150, 90)),
    ("h4", Entry(180, 90)),
    ("h3", Entry(210, 90)),
    ("h2", Entry(240, 90)),
    ("h1", Entry(270, 90))
  ]

  const Board: seq<seq<Pair>> :=
    [ColumnA, ColumnB, ColumnC, ColumnD, ColumnE, ColumnF, ColumnG, ColumnH]

  /** The pairs of a display written in groups, in order. */
  function Flatten(b: seq<seq<Pair>>): (s: seq<Pair>)
    ensures forall p :: p in s <==> exists c :: 0 <= c < |b| && p in b[c]
  {
    if |b| == 0 then [] else b[0] + Flatten(b[1..])
  }

  /** No key occurs twice in a list of key/value pairs. */
  predicate Distinct(s: seq<Pair>)
  {
    forall i, j | 0 <= i < |s| && 0 <= j < |s| && s[i].0 == s[j].0 :: i == j
  }

  /** The dictionary a display of key/value pairs builds, later pairs
      overwriting earlier ones: its keys are exactly the listed keys, each
      holding a value listed with it, and the last pair always holds. */
  function ToMap(s: seq<Pair>): (m: map<string, Entry>)
    ensures forall k :: k in m <==> exists v :: (k, v) in s
    ensures forall k | k in m :: (k, m[k]) in s
    ensures |s| > 0 ==> m[s[|s| - 1].0] == s[|s| - 1].1
  {
    if |s| == 0 then map[]
    else
      var init := s[..|s| - 1];
      assert forall p :: p in s <==> p in init || p == s[|s| - 1];
      ToMap(init)[s[|s| - 1].0 := s[|s| - 1].1]
  }

  /** The position table as the controller consults it. */
  const PositionData: map<string, Entry> := ToMap(Flatten(Board))

  /** A pair whose key is not listed again later is the one the dictionary
      holds for that key. */
  lemma {:induction false} ToMapLastWins(s: seq<Pair>, i: nat)
    requires i < |s|
    requires forall j | i < j < |s| :: s[j].0 != s[i].0
    ensures s[i].0 in ToMap(s) && ToMap(s)[s[i].0] == s[i].1
  {
    if i < |s| - 1 {
      var init := s[..|s| - 1];
      assert forall j | i < j < |init| :: init[j] == s[j];
      ToMapLastWins(init, i);
      assert init[i] == s[i];
    }
  }

  /** With no repeated key, the dictionary holds every listed pair and has
      one key per pair. */
  lemma {:induction false} ToMapDistinct(s: seq<Pair>)
    requires Distinct(s)
    ensures |ToMap(s)| == |s|
    ensures forall k, v :: (k, v) in s ==> ToMap(s)[k] == v
  {
    if |s| > 0 {
      var init := s[..|s| - 1];
      var last := s[|s| - 1];
      assert Distinct(init);
      ToMapDistinct(init);
      forall k, v | (k, v) in s
        ensures ToMap(s)[k] == v
      {
        var i :| 0 <= i < |s| && s[i] == (k, v);
        if i < |s| - 1 {
          assert init[i] == (k, v);
        }
      }
    }
  }

  /** The layout every column of the display has: eight keys in the given
      column, from row 8 down to row 1, with positive forward distances that
      grow towards row 1 and the given rotation, one of the listed angles,
      for the whole column. */
  predicate ColumnShape(col: seq<Pair>, letter: char, angle: int)
  {
    && |col| == 8
    && (forall k | 0 <= k < 8 :: col[k].0 == [letter, RowDigits[7 - k]])
    && (forall k | 0 <= k < 8 :: col[k].1.forward > 0 && col[k].1.rotation == angle)
    && angle in Angles
    && (forall i, j | 0 <= i < j < 8 :: col[i].1.forward < col[j].1.forward)
  }

  /** A column has the layout above when its keys, its rotation and its
      first forward distance are right and each forward distance is below
      the next. */
  lemma ColumnShapeFromSteps(col: seq<Pair>, letter: char, angle: int)
    requires |col| == 8
    requires forall k | 0 <= k < 8 :: col[k].0 == [letter, RowDigits[7 - k]]
    requires forall k | 0 <= k < 8 :: col[k].1.rotation == angle
    requires angle in Angles
    requires col[0].1.forward > 0
    requires forall k | 0 <= k < 7 :: col[k].1.forward < col[k + 1].1.forward
    ensures ColumnShape(col, letter, angle)
  {
    assert col[0].1.forward < col[1].1.forward < col[2].1.forward < col[3].1.forward;
    assert col[3].1.forward < col[4].1.forward < col[5].1.forward < col[6].1.forward < col[7].1.forward;
  }

  lemma ColumnAShape()
    ensures ColumnShape(ColumnA, 'a', -90)
  {
    ColumnShapeFromSteps(ColumnA, 'a', -90);
  }

  lemma ColumnBShape()
    ensures ColumnShape(ColumnB, 'b', -45)
  {
    ColumnShapeFromSteps(ColumnB, 'b', -45);
  }

  lemma ColumnCShape()
    ensures ColumnShape(ColumnC, 'c', -22)
  {
    ColumnShapeFromSteps(ColumnC, 'c', -22);
  }

  lemma ColumnDShape()
    ensures ColumnShape(ColumnD, 'd', 0)
  {
    ColumnShapeFromSteps(ColumnD, 'd', 0);
  }

  lemma ColumnEShape()
    ensures ColumnShape(ColumnE, 'e', 22)
  {
    ColumnShapeFromSteps(ColumnE, 'e', 22);
  }

  lemma ColumnFShape()
    ensures ColumnShape(ColumnF, 'f', 45)
  {
    ColumnShapeFromSteps(ColumnF, 'f', 45);
  }

  lemma ColumnGShape()
    ensures ColumnShape(ColumnG, 'g', 67)
  {
    ColumnShapeFromSteps(ColumnG, 'g', 67);
  }

  lemma ColumnHShape()
    ensures ColumnShape(ColumnH, 'h', 90)
  {
    ColumnShapeFromSteps(ColumnH, 'h', 90);
  }

  /** A display of eight columns a to h, each with the layout above and
      its column's angle. */
  predicate BoardShape(b: seq<seq<Pair>>)
  {
    |b| == 8 && forall c | 0 <= c < 8 :: ColumnShape(b[c], Columns[c], Angles[c])
  }

  /** The table display has that layout. */
  lemma BoardHasShape()
    ensures BoardShape(Board)
  {
    ColumnAShape();
    ColumnBShape();
    ColumnCShape();
    ColumnDShape();
    ColumnEShape();
    ColumnFShape();
    ColumnGShape();
    ColumnHShape();
  }


  /** Joining two duplicate-free lists with no key in common repeats no key. */
  lemma DistinctAppend(a: seq<Pair>, r: seq<Pair>)
    requires Distinct(a) && Distinct(r)
    requires forall p, q | p in a && q in r :: p.0 != q.0
    ensures Distinct(a + r)
  {
    var s := a + r;
    forall i, j | |a| <= i < |s| && |a| <= j < |s| && s[i].0 == s[j].0
      ensures i == j
    {
      assert r[i - |a|].0 == r[j - |a|].0;
    }
  }

  /** Groups that repeat no key, and share none with each other, flatten to
      a list that repeats no key. */
  lemma {:induction false} FlattenDistinct(b: seq<seq<Pair>>)
    requires forall c | 0 <= c < |b| :: Distinct(b[c])
    requires forall c1, c2, p, q | 0 <= c1 < c2 < |b| && p in b[c1] && q in b[c2] :: p.0 != q.0
    ensures Distinct(Flatten(b))
  {
    if |b| > 0 {
      var rest := b[1..];
      assert forall c | 0 <= c < |rest| :: rest[c] == b[c + 1];
      FlattenDistinct(rest);
      forall p, q | p in b[0] && q in Flatten(rest)
        ensures p.0 != q.0
      {
        var c :| 0 <= c < |rest| && q in rest[c];
        assert q in b[c + 1];
      }
      DistinctAppend(b[0], Flatten(rest));
    }
  }

  /** Groups of eight pairs flatten to eight pairs per group. */
  lemma {:induction false} FlattenLength(b: seq<seq<Pair>>)
    requires forall c | 0 <= c < |b| :: |b[c]| == 8
    ensures |Flatten(b)| == 8 * |b|
  {
    if |b| > 0 {
      assert forall c | 0 <= c < |b[1..]| :: b[1..][c] == b[c + 1];
      FlattenLength(b[1..]);
    }
  }

  /** A column with the layout above repeats no key: its keys differ in
      their row digit. */
  lemma ColumnDistinct(col: seq<Pair>, letter: char, angle: int)
    requires ColumnShape(col, letter, angle)
    ensures Distinct(col)
  {
    forall i, j | 0 <= i < 8 && 0 <= j < 8 && col[i].0 == col[j].0
      ensures i == j
    {
      assert col[i].0[1] == RowDigits[7 - i] && col[j].0[1] == RowDigits[7 - j];
    }
  }

  /** A display with the board layout lists no square twice. */
  lemma ShapeDistinct(b: seq<seq<Pair>>)
    requires BoardShape(b)
    ensures Distinct(Flatten(b))
  {
    forall c | 0 <= c < 8
      ensures Distinct(b[c])
    {
      ColumnDistinct(b[c], Columns[c], Angles[c]);
    }
    forall c1, c2, p, q | 0 <= c1 < c2 < 8 && p in b[c1] && q in b[c2]
      ensures p.0 != q.0
    {
      var i :| 0 <= i < 8 && b[c1][i] == p;
      var j :| 0 <= j < 8 && b[c2][j] == q;
      assert p.0[0] == Columns[c1] && q.0[0] == Columns[c2];
    }
    FlattenDistinct(b);
  }

  /** The position of a character in a string that contains it. */
  function IndexOf(s: string, ch: char): (i: nat)
    requires ch in s
    ensures i < |s| && s[i] == ch
  {
    if s[0] == ch then 0 else 1 + IndexOf(s[1..], ch)
  }

  /** A pair listed in a display with the board layout has a square name. */
  lemma ListedIsSquare(b: seq<seq<Pair>>, p: string, v: Entry)
    requires BoardShape(b)
    requires (p, v) in Flatten(b)
    ensures IsSquareName(p)
  {
    var c :| 0 <= c < 8 && (p, v) in b[c];
    var k :| 0 <= k < 8 && b[c][k] == (p, v);
    assert p == [Columns[c], RowDigits[7 - k]];
  }

  /** Every square name is listed in a display with the board layout, at its
      column's position for its row. */
  lemma SquareIsListed(b: seq<seq<Pair>>, p: string)
    requires BoardShape(b)
    requires IsSquareName(p)
    ensures b[IndexOf(Columns, p[0])][7 - IndexOf(RowDigits, p[1])].0 == p
    ensures b[IndexOf(Columns, p[0])][7 - IndexOf(RowDigits, p[1])] in Flatten(b)
  {
    var c := IndexOf(Columns, p[0]);
    var k := 7 - IndexOf(RowDigits, p[1]);
    assert b[c][k].0 == [Columns[c], RowDigits[7 - k]];
    assert b[c][k] in b[c];
  }

  /** A display with the board layout builds a dictionary whose keys are
      exactly the 64 square names. */
  lemma ShapeKeySet(b: seq<seq<Pair>>)
    requires BoardShape(b)
    ensures forall p :: p in ToMap(Flatten(b)) <==> IsSquareName(p)
  {
    var s := Flatten(b);
    forall p
      ensures p in ToMap(s) <==> IsSquareName(p)
    {
      if p in ToMap(s) {
        var v :| (p, v) in s;
        ListedIsSquare(b, p, v);
      }
      if IsSquareName(p) {
        SquareIsListed(b, p);
      }
    }
  }

  /** A display with the board layout builds a dictionary whose keys are
      exactly the 64 square names, holding each listed entry. */
  lemma ShapeKeys(b: seq<seq<Pair>>)
    requires BoardShape(b)
    ensures forall p :: p in ToMap(Flatten(b)) <==> IsSquareName(p)
    ensures |ToMap(Flatten(b))| == 64
    ensures forall c, k | 0 <= c < 8 && 0 <= k < 8 :: ToMap(Flatten(b))[b[c][k].0] == b[c][k].1
  {
    var s := Flatten(b);
    ShapeDistinct(b);
    ToMapDistinct(s);
    FlattenLength(b);
    forall c, k | 0 <= c < 8 && 0 <= k < 8
      ensures b[c][k] in s
    {
      assert b[c][k] in b[c];
    }
    ShapeKeySet(b);
  }

  /** Two names with the same column letter. */
  predicate SameColumn(p: string, q: string)
  {
    |p| > 0 && |q| > 0 && p[0] == q[0]
  }

  /** Name p has a lower row digit than name q. */
  predicate LowerRow(p: string, q: string)
  {
    |p| > 1 && |q| > 1 && p[1] < q[1]
  }

  /** The entry of a square in a display with the board layout. */
  lemma ShapeEntry(b: seq<seq<Pair>>, p: string)
    requires BoardShape(b)
    requires IsSquareName(p)
    ensures p in ToMap(Flatten(b))
    ensures ToMap(Flatten(b))[p] == b[IndexOf(Columns, p[0])][7 - IndexOf(RowDigits, p[1])].1
  {
    SquareIsListed(b, p);
    ShapeDistinct(b);
    ToMapDistinct(Flatten(b));
  }

  /** Each key of the dictionary a display with the board layout builds is
      a square name. */
  lemma KeyIsSquare(b: seq<seq<Pair>>, p: string)
    requires BoardShape(b)
    ensures p in ToMap(Flatten(b)) ==> IsSquareName(p)
  {
    if p in ToMap(Flatten(b)) {
      var v :| (p, v) in Flatten(b);
      ListedIsSquare(b, p, v);
    }
  }

  /** The value of each key: it is a square name, its forward distance is
      positive and its rotation is its column's angle, one of the listed
      angles. */
  lemma SquareValue(b: seq<seq<Pair>>, p: string)
    requires BoardShape(b)
    ensures p in ToMap(Flatten(b)) ==>
      && IsSquareName(p)
      && ToMap(Flatten(b))[p].forward > 0
      && ToMap(Flatten(b))[p].rotation == Angles[IndexOf(Columns, p[0])]
      && ToMap(Flatten(b))[p].rotation in Angles
  {
    KeyIsSquare(b, p);
    if p in ToMap(Flatten(b)) {
      ShapeEntry(b, p);
    }
  }

  /** The row digits are listed in increasing order. */
  lemma DigitOrder(i: nat, j: nat)
    requires i < 8 && j < 8
    requires RowDigits[i] < RowDigits[j]
    ensures i < j
  {
  }

  /** Of two squares in one column, the one with the lower row digit lies
      farther forward. */
  lemma SquareOrder(b: seq<seq<Pair>>, p: string, q: string)
    requires BoardShape(b)
    requires IsSquareName(p) && IsSquareName(q)
    requires SameColumn(p, q) && LowerRow(p, q)
    ensures p in ToMap(Flatten(b)) && q in ToMap(Flatten(b))
    ensures ToMap(Flatten(b))[p].forward > ToMap(Flatten(b))[q].forward
  {
    ShapeEntry(b, p);
    ShapeEntry(b, q);
    var c := IndexOf(Columns, p[0]);
    assert IndexOf(Columns, q[0]) == c;
    var ip := IndexOf(RowDigits, p[1]);
    var iq := IndexOf(RowDigits, q[1]);
    DigitOrder(ip, iq);
    assert ColumnShape(b[c], Columns[c], Angles[c]);
  }

  /** The position table: keyed by exactly the 64 squares a1..h8, every
      forward distance positive, one rotation per column (the column's
      entry of `Angles`, from -90 for column a to 90 for column h), and
      within a column the forward distance strictly increasing from row 8
      down to row 1. */
  lemma TableShape()
    ensures forall p :: p in PositionData <==> IsSquareName(p)
    ensures |PositionData| == 64
    ensures forall p | p in PositionData ::
      PositionData[p].forward > 0 && PositionData[p].rotation in Angles
    ensures forall p | IsSquareName(p) ::
      PositionData[p].rotation == Angles[IndexOf(Columns, p[0])]
    ensures forall p, q | p in PositionData && q in PositionData && SameColumn(p, q) ::
      PositionData[p].rotation == PositionData[q].rotation
    ensures forall p, q | p in PositionData && q in PositionData && SameColumn(p, q) && LowerRow(p, q) ::
      PositionData[p].forward > PositionData[q].forward
  {
    BoardHasShape();
    ShapeKeys(Board);
    forall p | p in PositionData
      ensures PositionData[p].forward > 0 && PositionData[p].rotation in Angles
      ensures PositionData[p].rotation == Angles[IndexOf(Columns, p[0])]
    {
      SquareValue(Board, p);
    }
    forall p, q | p in PositionData && q in PositionData && SameColumn(p, q)
      ensures PositionData[p].rotation == PositionData[q].rotation
    {
      SquareValue(Board, p);
      SquareValue(Board, q);
    }
    forall p, q | p in PositionData && q in PositionData && SameColumn(p, q) && LowerRow(p, q)
      ensures PositionData[p].forward > PositionData[q].forward
    {
      KeyIsSquare(Board, p);
      KeyIsSquare(Board, q);
      SquareOrder(Board, p, q);
    }
  }

  /** Every square name is a key of the table. */
  lemma SquareInTable(p: string)
    requires IsSquareName(p)
    ensures p in PositionData
  {
    BoardHasShape();
    ShapeEntry(Board, p);
  }

  /** The table holds every pair of its display under that pair's key: a
      later pair never overwrites an earlier one. */
  lemma TableHoldsDisplay()
    ensures forall c, k | 0 <= c < 8 && 0 <= k < 8 ::
      Board[c][k].0 in PositionData && PositionData[Board[c][k].0] == Board[c][k].1
  {
    BoardHasShape();
    ShapeKeys(Board);
    forall c, k | 0 <= c < 8 && 0 <= k < 8
      ensures Board[c][k].0 in PositionData
    {
      assert IsSquareName(Board[c][k].0);
    }
  }
}

=== FILE: validator.dfy ===
/** The square validator: ordered checks on a user-supplied square name,
    the first failing check deciding the verdict. */
module Validator {
  import opened Positions

  /** Why a name is refused, one case per check, in the order they run. */
  datatype Rejection =
    | BadFormat                  // not exactly two characters
    | BadColumn(column: char)    // first character not a column letter
    | BadRow(row: char)          // second character not a row digit
    | Unavailable(name: string)  // not a key of the position table

  datatype Verdict = Valid | Invalid(reason: Rejection)

  /** Validates a square name: length, then column, then row, then table
      membership; the first check that fails decides the rejection. */
  function ValidatePosition(position: string): (v: Verdict)
    ensures v == Invalid(BadFormat) <==> |position| != 2
    ensures v.Invalid? && v.reason.BadColumn? <==>
      |position| == 2 && position[0] !in Columns
    ensures v.Invalid? && v.reason.BadRow? <==>
      |position| == 2 && position[0] in Columns && position[1] !in RowDigits
    ensures v.Invalid? && v.reason.BadColumn? ==> v.reason.column == position[0]
    ensures v.Invalid? && v.reason.BadRow? ==> v.reason.row == position[1]
    ensures v.Invalid? && v.reason.Unavailable? ==> v.reason.name == position
    ensures v.Valid? ==> position in PositionData
  {
    if |position| != 2 then Invalid(BadFormat)
    else if position[0] !in Columns then Invalid(BadColumn(position[0]))
    else if position[1] !in RowDigits then Invalid(BadRow(position[1]))
    else if position !in PositionData then Invalid(Unavailable(position))
    else Valid
  }

  /** The message the validator pairs with each verdict. */
  function Message(v: Verdict): (m: string)
    ensures m == "Valid" <==> v.Valid?
  {
    match v
    case Valid => "Valid"
    case Invalid(BadFormat) => "Invalid position format. Use format like 'd7', 'e5', etc."
    case Invalid(BadColumn(c)) => "Invalid column '" + [c] + "'. Must be a-h."
    case Invalid(BadRow(r)) => "Invalid row '" + [r] + "'. Must be 1-8."
    case Invalid(Unavailable(p)) => "Position '" + p + "' not available in position data."
  }

  /** Because the table holds every square, the validator accepts exactly the
      syntactically well-formed names, the membership check never decides a
      rejection, and an accepted name is always a table key. */
  lemma ValidateIsSyntactic(position: string)
    ensures ValidatePosition(position).Valid? <==> IsSquareName(position)
    ensures ValidatePosition(position) != Invalid(Unavailable(position))
    ensures ValidatePosition(position).Valid? ==> position in PositionData
  {
    TableShape();
  }

  /** The sample square "d7" is valid. */
  lemma ValidateAccepts()
    ensures ValidatePosition("d7") == Valid
  {
    ValidateIsSyntactic("d7");
  }

  /** The verdicts on the refused sample names: "i9" fails on its column,
      "d" on its length, "D7" on its column (it is only accepted after
      lower-casing) and "a9" on its row. */
  lemma ValidateRejects()
    ensures ValidatePosition("i9") == Invalid(BadColumn('i'))
    ensures ValidatePosition("d") == Invalid(BadFormat)
    ensures ValidatePosition("D7") == Invalid(BadColumn('D'))
    ensures ValidatePosition("a9") == Invalid(BadRow('9'))
  {
  }
}
